=== FILE: README.md ===
# Origin-destination trip dashboard (AMVA): verified model of the query and aggregation core

This Dafny project models the pure core of a one-page Streamlit dashboard. The dashboard shows
origin-destination trips for the Aburrá Valley metropolitan area (AMVA). The core has three parts,
all in `main.py`:

- **`load_data` query text** (lines 64-80). A fixed base query keeps only non-professional trips
  (`profesional = 'No'`). Up to three clauses may follow it, always in this order: transport modes
  (`modo IN (...)`), an inclusive hour range (`CAST(substr(periodo, 2) AS INTEGER) BETWEEN lo AND hi`),
  and a zone list tested against origin or destination. Each present clause follows one `" AND "`.
  Values go into the text verbatim, without escaping.
- **Period labels** (line 113, and line 73 for the SQL version). A label such as `"P8"` becomes an
  hour by dropping exactly one character and reading the rest as a decimal integer. Python does this
  with `int(x[1:])`; the SQL filter does it with SQLite's `CAST(substr(periodo, 2) AS INTEGER)`.
- **Grouped trip sums** (lines 122, 127, 128). The loaded rows are grouped by hour (the histogram),
  by destination ("Generación") and by origin ("Atracción"). Each group sums the `viajes` column.
  The source's labels are kept: the by-destination table is drawn under "Generación" and the
  by-origin table under "Atracción". Common transport-planning usage names these the other way round.

Modules, leaf first:

- `Wrappers` (wrappers.dfy): `Option`, usable with `:-`. It models a Python exception or an SQL
  error as `None`.
- `Text` (text.dfy): Python's `str.join`, and the decimal text that `str()` and f-strings give an
  integer. Also digit runs and prefix stripping.
- `Period` (period.dfy): Python `int()` on base-10 text, SQLite's integer cast of text, label
  decoding, and how those agree.
- `Query` (query.dfy): the filter, the clause list `load_data` builds, their text, and the query
  string.
- `QueryReader` (reader.dfy): reads the WHERE clause back into clauses, for the grammar the builder
  emits. The round trip proves the text determines the filter whenever no mode contains a quote.
- `Rows` (rows.dfy): the `viajes` table, what each clause tests of a row, the loader's contract
  stated dimension by dimension, and `load_data` run against a table.
- `Groups` (groups.dfy): pandas' `groupby(...)['viajes'].sum()` as a map from key to sum. Also the
  sum of a map's values.
- `Dashboard` (dashboard.dfy): decoding the period column, the three groupings, and the whole page
  for one setting of the widgets.

Three facts about the source shape the model:

- `load_data` (main.py:64-82) applies no row cap, so the model has none.
- main.py does not narrow column types after loading, so the model keeps the selected columns as
  they are.
- The zone selector (main.py:96-99) passes strings `"1"` .. `"999"`. `str()` of such a string is
  the string itself, which is the decimal text of the integer. The model therefore keeps zones as
  integers and writes them with `IntToDecimal`.

## Model

| member | source | states |
|---|---|---|
| Text.NatToDecimal | main.py:73 | The decimal text `str()`/f-strings give a natural number is non-empty, all digits, has no leading zero (unless it is "0"), and reads back as the same number. |
| Text.Join | main.py:69 | `sep.join(parts)` (also at lines 76 and 80): the empty list gives "" and one element gives itself. `QueryReader.ParseModeListOfJoin` and `QueryReader.ParseIntListOfJoin` show that, for quote-free modes and for any zones, the separator splits the text back into the same list. |
| Text.IntToDecimal | main.py:73 | `str()` of an integer is non-empty and starts with '-' exactly when the integer is negative. `QueryReader.ParseIntOfDecimal` reads it back as the same integer. |
| Period.PythonInt | main.py:113 | On ASCII text without surrounding whitespace or `_` separators, and of at most 4300 digits, Python `int()` accepts exactly an optional sign followed by at least one digit. Whenever the modelled `int()` accepts a text, SQLite's integer cast reads the same number from that text. |
| Period.SqlCastInteger | main.py:73 | SQLite's integer cast reads 0 from a text that starts with neither a digit nor a sign, the empty text included. It reads the plain value from an all-digit text. `Period.PythonInt` states that it agrees with Python wherever Python accepts. |
| Period.SqlHour | main.py:73 | `CAST(substr(periodo, 2) AS INTEGER)` is 0 on a label of at most one character, where Python's decoding raises instead. |
| Period.DecodeLabel | main.py:113 | `int(x[1:])` fails on every label shorter than two characters. Whenever it succeeds, the hour the SQL filter compares (`CAST(substr(periodo, 2) AS INTEGER)`) is the same. `Period.LabelRoundTrip` and `Period.DropsExactlyOne` fix which labels decode to what. |
| Period.LabelRoundTrip | main.py:113 | Decoding drops exactly one leading character, whatever it is. So any character followed by the decimal text of h decodes to h, in Python and in the SQL filter alike. |
| Period.DatasetLabels | main.py:73 | The dataset's labels "P0" .. "P23" decode to hours 0 .. 23 in both the Python and the SQL reading. |
| Period.DropsExactlyOne | main.py:113 | One character is dropped, not a "P" prefix: "18" decodes to 8; "", "P" and "PP8" are rejected. |
| Query.Clauses | main.py:67-77 | A mode clause appears iff the mode list is non-empty, and it carries that list. An hour clause appears iff a range is supplied, with its bounds in the given order. A zone clause appears iff the zone list is non-empty. Clauses come in the fixed order modo, periodo, zona, each at most once. |
| Query.Decimals | main.py:76 | `map(str, zonas)` keeps the list's length and order and writes each zone as its decimal text. |
| Query.RenderClause | main.py:70-77 | Each clause kind is written behind its own head: "modo IN ('", "CAST(substr(periodo, 2) AS INTEGER) BETWEEN " or "(origen IN (". `QueryReader.ParseClauseOfRender` reads every rendered clause back. |
| Query.JoinAsPrefixed | main.py:79-80 | `" AND " + " AND ".join(filters)` puts exactly one " AND " in front of each clause of a non-empty list. |
| Query.BuildQuery | main.py:64-80 | The base query (with `profesional = 'No'`) is always a prefix. The text is exactly the base query iff no filter is active. Otherwise it is the base query followed by each present clause, each behind one " AND ". |
| Query.DefaultRangeStillFilters | main.py:72-73 | The slider's full default range (0, 23) still emits `BETWEEN 0 AND 23`. |
| Query.InitialQuery | main.py:85-102 | The page's initial widgets (mode "Transporte público", range 0..23, no zone) yield the base query, the mode clause and the hour clause, in that order. |
| Query.ModesAndZonesQuery | main.py:68-77 | Example: the modes "Privado" and "No motorizado" with zones 5 and 12 give the exact text, with the modes joined by "','" in input order and the one list "5,12" used for both `origen IN` and `destino IN`, inside one parenthesised OR clause. |
| Query.UnescapedModesCollide | main.py:68-70 | Modes are inserted unescaped. The single mode "a','b" gives exactly the same text as the two modes "a" and "b". |
| QueryReader.ParseIntOfDecimal | main.py:73 | An integer written by an f-string reads back as itself, up to the first non-digit that follows it. |
| QueryReader.ParseIntListOfJoin | main.py:75-77 | `",".join(map(str, zonas))` reads back as the same zone list, in order. |
| QueryReader.ParseModeListOfJoin | main.py:68-70 | `"','".join(modos)` followed by "')" reads back as the same mode list, in order, when no mode contains a quote. |
| QueryReader.ParseClauseOfRender | main.py:67-77 | For quote-free modes, each clause the builder renders reads back as itself, whatever clause text follows. |
| QueryReader.ParseClausesOfPrefixed | main.py:79-80 | For quote-free modes, a run of clauses, each behind " AND ", reads back as the same list. |
| QueryReader.FilterOfClauses | main.py:67-77 | The clause list determines the filter. An absent clause stands for an empty mode list, no range, or an empty zone list. |
| QueryReader.QueryRoundTrip | main.py:64-80 | When no mode contains a quote, the query text reads back as the clauses built from the filter, and as the filter itself. |
| QueryReader.QueryIsInjective | main.py:64-80 | Two filters with quote-free modes that give the same query text are equal. |
| Rows.MatchesIffClauses | main.py:65-77 | A row meets the per-dimension contract iff it is non-professional and passes every emitted clause. An absent clause restricts nothing. |
| Rows.Select | main.py:64-82 | The reference selection returns every matching row, as often as the table holds it. It returns no other row, and nothing outside the table. |
| Rows.RunQuery | main.py:82 | Running a text fails exactly when the text lies outside the grammar the builder writes. Otherwise it returns at most one record per table row. |
| Rows.LoadData | main.py:64-82 | Every record `load_data` returns is the projection of a non-professional table row, and there are at most as many records as table rows. `Rows.LoadDataSelects` states exactly which rows. |
| Rows.WhereOfClauses | main.py:65-80 | Filtering the table by the emitted clauses gives the projections of the reference selection, in table order. |
| Rows.LoadDataSelects | main.py:64-82 | When no mode contains a quote, running `load_data`'s query text returns exactly the projections of the rows the filter selects. |
| Rows.FullRangeRestrictsNothing | main.py:91-94 | Whatever modes and zones are selected, when every row's hour lies in 0..23 the full default range selects the same rows as no range. |
| Rows.NoFilterKeepsNonProfessional | main.py:65 | With no filter, every non-professional trip is returned, as often as the table holds it, and no professional trip is. |
| Groups.GroupSum | main.py:122 | The grouped sum has one entry per key present in the rows and no other. Each entry is the sum of that key's values. |
| Groups.GroupSumTotal | main.py:122 | Grouping conserves the total: the group sums add up to the sum of all values. |
| Groups.GroupSumEmpty | main.py:122 | The grouped sum is empty iff there are no rows. |
| Dashboard.DecodePeriods | main.py:113 | The period column decodes iff every label decodes. Each row then carries its label's hour, with its other columns unchanged. |
| Dashboard.GroupTrips | main.py:127-128 | Grouping by hour, destination or origin gives exactly the keys the rows carry, each with the sum of its trips. |
| Dashboard.Aggregate | main.py:113-128 | The three tables are built exactly when every loaded row's label decodes. `Dashboard.AggregateTotals` states what they add up to. |
| Dashboard.Page | main.py:102-128 | The page renders only when `load_data` succeeds. `Dashboard.PageRenders` and `Dashboard.PageConservesTrips` state when it renders and what it shows. |
| Dashboard.PageRenders | main.py:102-113 | For quote-free modes, the page renders exactly when every row the filter selects has a label Python can read. The labels of rows the query drops never matter. |
| Dashboard.TotalsAgree | main.py:122-128 | The hourly, by-destination and by-origin tables each add up to the trips of the loaded rows, so the three totals are equal. |
| Dashboard.NoRowsNoGroups | main.py:122-128 | Each of the three tables is empty iff no rows were loaded. |
| Dashboard.AggregateTotals | main.py:113-128 | Rows whose labels decode produce all three tables, each adding up to the rows' trips. |
| Dashboard.PageConservesTrips | main.py:102-128 | Take quote-free modes and a table whose selected rows carry labels Python can read; other rows may carry any label. The page renders, and each of its three tables adds up to the trips of exactly the rows the filter selects. |
| Dashboard.DistributionWithinRange | main.py:113-122 | For quote-free modes, every hour in the histogram lies within the selected range. |
| Dashboard.TwoTripExample | main.py:122-128 | Two trips at 08:00 (1→2 with 50 trips, 2→1 with 30) give 80 at hour 8. By destination they give 2↦50 and 1↦30; by origin they give 1↦50 and 2↦30. |

## Left out

- Downloading the database with `gdown` and the `st.cache_resource`/`st.cache_data` memoisation (main.py lines 17-19, 60, 63): network I/O and framework caching. With pure functions, calling `load_data` twice with the same arguments trivially gives the same result.
- The SQLite connection and `pd.read_sql` (main.py lines 34, 82, 173): a foreign call. The model runs the query text as a function of a table given as a parameter. Only texts in the grammar the builder emits are read. Any other text is a load error (`None`), not an interpretation; only a mode that contains a quote can produce such a text. SQLite itself runs some of these texts: a doubled quote (`''`) reads as one quote inside the mode literal, and an injected mode such as `x') OR ('1'='1` is valid SQL that even returns professional rows. The model does not follow SQLite there; every property stated for the query text assumes quote-free modes.
- Row order of the SQL result: SQLite gives no order without `ORDER BY`. The model returns rows in table order. The grouped sums are maps, so they do not depend on the order.
- GeoJSON reading and the `int()` coercion of `Nueva_Zona` (main.py lines 26-31): file I/O plus a per-feature cast.
- Streamlit widgets, the spinner, headers and the success/error messages (main.py lines 8, 22, 38-58, 85-110, 116, 123, 133, 153): UI. The widgets' values become the arguments of `Page`. The `df is None` branch cannot be taken, because `load_data` always returns a DataFrame or raises.
- Plotly choropleth and bar-chart calls (main.py lines 124, 134-170): rendering. The model stops at the three maps handed to them.
- Period.PythonInt: does not model the surrounding whitespace, the `_` digit separators or the non-ASCII decimal digits that Python's `int()` also accepts (`int("٣") == 3`, `int("３") == 3`). The dataset's labels have none of them. The Python and SQL readings therefore agree only on ASCII labels without separators: on "P1_0" Python reads 10 while SQLite reads 1, and on "P٣" Python reads 3 while SQLite reads 0. The model rejects such labels instead. It also does not model CPython's limit of 4300 digits (`sys.int_max_str_digits`): `int(x[1:])` raises on a longer label, where `DecodeLabel` returns the number. The dataset's labels have at most three characters.
- Period.SqlCastInteger: does not model SQLite skipping leading spaces, or its clamping at 64-bit bounds.
- Text.IntToDecimal: does not model CPython's 4300-digit limit on `str()` of an integer, nor SQLite reading an integer literal outside the 64-bit range as a floating-point value; `QueryReader.ParseInt` reads every literal as an exact integer. The widgets only ever supply hours 0..23 and zones "1".."999", far inside both limits.
- SQL NULLs: every column is non-NULL. NULL keys, which pandas' `groupby` drops by default, are not modelled; a row with a NULL `origen` or `destino` would vanish from one table only, and a NULL `periodo` makes `x[1:]` raise at main.py:113. The totals `Dashboard.TotalsAgree` and `Dashboard.PageConservesTrips` state are for tables without NULLs.
- Trip counts: `viajes` is an unbounded integer. Fractional trip counts and pandas' float sums are not modelled.

=== FILE: dashboard.dfy ===
/** The page's data pipeline after loading (main.py lines 102-128): decode each
    row's period label into an hour, then sum trips by hour (the histogram),
    by destination ("Generación") and by origin ("Atracción"). */
module Dashboard {

  import opened Wrappers
  import opened Query
  import opened QueryReader
  import opened Rows
  import opened Groups
  import Period

  /** A loaded row once line 113 has replaced its period label by the hour. */
  datatype HourRecord = HourRecord(origen: int, destino: int, hour: int, modo: string, viajes: int)

  /** `df['periodo'].apply(lambda x: int(x[1:]))`: every label is decoded, and a
      single label Python cannot read raises, which aborts the page. */
  function DecodePeriods(rs: seq<Record>): (r: Option<seq<HourRecord>>)
    ensures r.Some? <==> forall i :: 0 <= i < |rs| ==> Period.DecodeLabel(rs[i].periodo).Some?
    ensures r.Some? ==> |r.value| == |rs|
    ensures r.Some? ==> forall i :: 0 <= i < |rs| ==>
              && r.value[i].hour == Period.DecodeLabel(rs[i].periodo).value
              && r.value[i].origen == rs[i].origen && r.value[i].destino == rs[i].destino
              && r.value[i].modo == rs[i].modo && r.value[i].viajes == rs[i].viajes
  {
    if |rs| == 0 then Some([])
    else
      var h :- Period.DecodeLabel(rs[0].periodo);
      var rest :- DecodePeriods(rs[1..]);
      Some([HourRecord(rs[0].origen, rs[0].destino, h, rs[0].modo, rs[0].viajes)] + rest)
  }

  /** The column a chart groups by. */
  datatype Grouping = ByHour | ByDestination | ByOrigin

  function KeyOf(r: HourRecord, g: Grouping): int {
    match g
    case ByHour => r.hour
    case ByDestination => r.destino
    case ByOrigin => r.origen
  }

  /** The (key, viajes) column pair a `groupby` sums over. */
  function Pairs(rs: seq<HourRecord>, g: Grouping): (ps: seq<(int, int)>)
    ensures |ps| == |rs|
    ensures forall i :: 0 <= i < |rs| ==> ps[i] == (KeyOf(rs[i], g), rs[i].viajes)
  {
    if |rs| == 0 then [] else Pairs(rs[..|rs| - 1], g) + [(KeyOf(rs[|rs| - 1], g), rs[|rs| - 1].viajes)]
  }

  /** The keys a grouping of the rows yields: every key some row carries. */
  function RowKeys(rs: seq<HourRecord>, g: Grouping): set<int> {
    set i | 0 <= i < |rs| :: KeyOf(rs[i], g)
  }

  /** `df.groupby([column])['viajes'].sum()`: one entry per key the rows carry,
      no other, each the sum of the trips recorded under it. */
  function GroupTrips(rs: seq<HourRecord>, g: Grouping): (m: map<int, int>)
    ensures m.Keys == RowKeys(rs, g)
    ensures forall k :: k in m ==> m[k] == SumFor(Pairs(rs, g), k)
  {
    var ps := Pairs(rs, g);
    assert KeysOf(ps) == RowKeys(rs, g) by {
      forall k | k in RowKeys(rs, g) ensures k in KeysOf(ps) {
        var i :| 0 <= i < |rs| && KeyOf(rs[i], g) == k;
        assert ps[i].0 == k;
      }
    }
    GroupSum(ps)
  }

  /** The three tables the page draws. */
  datatype Charts = Charts(distribution: map<int, int>, generation: map<int, int>, attraction: map<int, int>)

  /** Lines 113-128 on the loaded rows: `dist` by hour, `viajes_o` by
      destination, `viajes_d` by origin. */
  function Aggregate(rs: seq<Record>): (r: Option<Charts>)
    ensures r.Some? <==> forall i :: 0 <= i < |rs| ==> Period.DecodeLabel(rs[i].periodo).Some?
  {
    var hs :- DecodePeriods(rs);
    Some(Charts(GroupTrips(hs, ByHour), GroupTrips(hs, ByDestination), GroupTrips(hs, ByOrigin)))
  }

  /** The whole page for one setting of the three widgets, against a table. */
  function Page(table: seq<Trip>, modes: seq<string>, period: Option<PeriodRange>, zones: seq<int>): (r: Option<Charts>)
    ensures r.Some? ==> LoadData(table, modes, period, zones).Some?
  {
    var rs :- LoadData(table, modes, period, zones);
    Aggregate(rs)
  }

  /** Every grouping conserves the trips of the loaded rows, so the hourly,
      by-destination and by-origin totals are equal. */
  lemma TotalsAgree(rs: seq<HourRecord>, g: Grouping)
    ensures MapTotal(GroupTrips(rs, g)) == Sum(Values(Pairs(rs, g)))
    ensures MapTotal(GroupTrips(rs, g)) == MapTotal(GroupTrips(rs, ByHour))
  {
    GroupSumTotal(Pairs(rs, g));
    GroupSumTotal(Pairs(rs, ByHour));
    assert Values(Pairs(rs, g)) == Values(Pairs(rs, ByHour));
  }

  /** A grouping is empty exactly when there are no rows. */
  lemma NoRowsNoGroups(rs: seq<HourRecord>, g: Grouping)
    ensures GroupTrips(rs, g) == map[] <==> |rs| == 0
  {
    GroupSumEmpty(Pairs(rs, g));
  }

  /** Decoding keeps the `viajes` column of the loaded trips. */
  lemma DecodedTripCounts(ts: seq<Trip>, hs: seq<HourRecord>)
    requires DecodePeriods(ProjectAll(ts)) == Some(hs)
    ensures Values(Pairs(hs, ByHour)) == TripCounts(ts)
  {
    var rs := ProjectAll(ts);
    assert forall i :: 0 <= i < |ts| ==> rs[i].viajes == ts[i].viajes;
  }

  /** The charts of a set of loaded rows whose labels decode, each adding up
      to the trips of the rows. */
  lemma AggregateTotals(ts: seq<Trip>)
    requires DecodePeriods(ProjectAll(ts)).Some?
    ensures Aggregate(ProjectAll(ts)).Some?
    ensures var c := Aggregate(ProjectAll(ts)).value;
            && MapTotal(c.distribution) == Sum(TripCounts(ts))
            && MapTotal(c.generation) == Sum(TripCounts(ts))
            && MapTotal(c.attraction) == Sum(TripCounts(ts))
  {
    var hs := DecodePeriods(ProjectAll(ts)).value;
    DecodedTripCounts(ts, hs);
    TotalsAgree(hs, ByHour);
    TotalsAgree(hs, ByDestination);
    TotalsAgree(hs, ByOrigin);
  }

  /** The page renders exactly when every row the filter selects carries a
      label Python can read; rows the query drops are never decoded. */
  lemma PageRenders(table: seq<Trip>, f: Filter)
    requires QuoteFreeModes(f.modes)
    ensures Page(table, f.modes, f.period, f.zones).Some?
        <==> forall t :: t in Select(table, f) ==> Period.DecodeLabel(t.periodo).Some?
  {
    var ts := Select(table, f);
    LoadDataSelects(table, f);
    assert Page(table, f.modes, f.period, f.zones) == Aggregate(ProjectAll(ts));
    ProjectedLabels(ts);
  }

  /** The projected rows carry the trips' labels, index by index. */
  lemma ProjectedLabels(ts: seq<Trip>)
    ensures forall i :: 0 <= i < |ts| ==> ProjectAll(ts)[i].periodo == ts[i].periodo && ts[i] in ts
  {
  }

  /** End to end: for quote-free modes and selected rows whose period labels
      Python can read, the page renders, and each of its three tables adds up
      to the trips of exactly the rows the filter selects. */
  lemma PageConservesTrips(table: seq<Trip>, f: Filter)
    requires QuoteFreeModes(f.modes)
    requires forall t :: t in Select(table, f) ==> Period.DecodeLabel(t.periodo).Some?
    ensures Page(table, f.modes, f.period, f.zones).Some?
    ensures var c := Page(table, f.modes, f.period, f.zones).value;
            && MapTotal(c.distribution) == Sum(TripCounts(Select(table, f)))
            && MapTotal(c.generation) == Sum(TripCounts(Select(table, f)))
            && MapTotal(c.attraction) == Sum(TripCounts(Select(table, f)))
  {
    var ts := Select(table, f);
    PageRenders(table, f);
    LoadDataSelects(table, f);
    assert Page(table, f.modes, f.period, f.zones) == Aggregate(ProjectAll(ts));
    AggregateTotals(ts);
  }

  /** Every hour the histogram shows lies in the selected range: the Python
      decoding agrees with the SQL cast the hour clause tested. */
  lemma DistributionWithinRange(table: seq<Trip>, f: Filter)
    requires QuoteFreeModes(f.modes)
    requires f.period.Some?
    requires Page(table, f.modes, f.period, f.zones).Some?
    ensures forall h :: h in Page(table, f.modes, f.period, f.zones).value.distribution ==>
              f.period.value.lo <= h <= f.period.value.hi
  {
    var ts := Select(table, f);
    LoadDataSelects(table, f);
    var rs := ProjectAll(ts);
    assert Page(table, f.modes, f.period, f.zones) == Aggregate(rs);
    var hs := DecodePeriods(rs).value;
    assert Page(table, f.modes, f.period, f.zones).value.distribution == GroupTrips(hs, ByHour);
    forall h | h in GroupTrips(hs, ByHour)
      ensures f.period.value.lo <= h <= f.period.value.hi
    {
      HourInRange(ts, f, hs, h);
    }
  }

  lemma HourInRange(ts: seq<Trip>, f: Filter, hs: seq<HourRecord>, h: int)
    requires f.period.Some?
    requires forall t :: t in ts ==> Matches(t, f)
    requires DecodePeriods(ProjectAll(ts)) == Some(hs)
    requires h in RowKeys(hs, ByHour)
    ensures f.period.value.lo <= h <= f.period.value.hi
  {
    var i :| 0 <= i < |hs| && KeyOf(hs[i], ByHour) == h;
    assert ts[i] in ts;
    assert hs[i].hour == Period.DecodeLabel(ts[i].periodo).value;
  }

  lemma ExampleDecodes()
    ensures DecodePeriods([Record(1, 2, "P8", "Transporte público", 50), Record(2, 1, "P8", "Transporte público", 30)])
         == Some([HourRecord(1, 2, 8, "Transporte público", 50), HourRecord(2, 1, 8, "Transporte público", 30)])
  {
    var rs := [Record(1, 2, "P8", "Transporte público", 50), Record(2, 1, "P8", "Transporte público", 30)];
    var hs := [HourRecord(1, 2, 8, "Transporte público", 50), HourRecord(2, 1, 8, "Transporte público", 30)];
    assert Text.NatToDecimal(8) == "8";
    Period.LabelRoundTrip('P', 8);
    assert ['P'] + "8" == "P8";
    assert Period.DecodeLabel("P8") == Some(8);
    var r := DecodePeriods(rs);
    assert r.Some?;
    assert r.value[0] == hs[0] && r.value[1] == hs[1];
    assert r.value == hs;
  }

  lemma ExampleByHour(hs: seq<HourRecord>)
    requires hs == [HourRecord(1, 2, 8, "Transporte público", 50), HourRecord(2, 1, 8, "Transporte público", 30)]
    ensures GroupTrips(hs, ByHour) == map[8 := 80]
  {
    assert Pairs(hs, ByHour) == [(8, 50), (8, 30)];
    assert [(8, 50), (8, 30)][..1] == [(8, 50)];
  }

  lemma ExampleByDestination(hs: seq<HourRecord>)
    requires hs == [HourRecord(1, 2, 8, "Transporte público", 50), HourRecord(2, 1, 8, "Transporte público", 30)]
    ensures GroupTrips(hs, ByDestination) == map[2 := 50, 1 := 30]
  {
    assert Pairs(hs, ByDestination) == [(2, 50), (1, 30)];
    assert [(2, 50), (1, 30)][..1] == [(2, 50)];
  }

  lemma ExampleByOrigin(hs: seq<HourRecord>)
    requires hs == [HourRecord(1, 2, 8, "Transporte público", 50), HourRecord(2, 1, 8, "Transporte público", 30)]
    ensures GroupTrips(hs, ByOrigin) == map[1 := 50, 2 := 30]
  {
    assert Pairs(hs, ByOrigin) == [(1, 50), (2, 30)];
    assert [(1, 50), (2, 30)][..1] == [(1, 50)];
  }

  /** Two public-transport trips at 08:00 between zones 1 and 2: 80 trips at
      hour 8; by destination 50 to zone 2 and 30 to zone 1; by origin 50 from
      zone 1 and 30 from zone 2. */
  lemma TwoTripExample()
    ensures Aggregate([Record(1, 2, "P8", "Transporte público", 50), Record(2, 1, "P8", "Transporte público", 30)])
         == Some(Charts(map[8 := 80], map[2 := 50, 1 := 30], map[1 := 50, 2 := 30]))
  {
    ExampleDecodes();
    var hs := [HourRecord(1, 2, 8, "Transporte público", 50), HourRecord(2, 1, 8, "Transporte público", 30)];
    ExampleByHour(hs);
    ExampleByDestination(hs);
    ExampleByOrigin(hs);
  }
}

=== FILE: groups.dfy ===
/** Grouped sums: pandas' `groupby([key])['viajes'].sum()` (main.py lines 122,
    127, 128) as a map from each key present in the rows to the sum of the
    values recorded under it. */
module Groups {

  /** The keys that occur in a list of (key, value) pairs. */
  function KeysOf<K>(pairs: seq<(K, int)>): set<K> {
    set i | 0 <= i < |pairs| :: pairs[i].0
  }

  /** The sum of the values recorded under key `k`: the reference each group
      total is compared with. */
  function SumFor<K(==)>(pairs: seq<(K, int)>, k: K): int {
    if |pairs| == 0 then 0
    else
      var last := pairs[|pairs| - 1];
      SumFor(pairs[..|pairs| - 1], k) + (if last.0 == k then last.1 else 0)
  }

  /** The sum of a column of values, from the first to the last. */
  function Sum(vs: seq<int>): int {
    if |vs| == 0 then 0 else Sum(vs[..|vs| - 1]) + vs[|vs| - 1]
  }

  /** The value column of a list of (key, value) pairs. */
  function Values<K>(pairs: seq<(K, int)>): (vs: seq<int>)
    ensures |vs| == |pairs|
    ensures forall i :: 0 <= i < |pairs| ==> vs[i] == pairs[i].1
  {
    seq(|pairs|, i requires 0 <= i < |pairs| => pairs[i].1)
  }

  lemma {:induction false} SumForAbsent<K>(pairs: seq<(K, int)>, k: K)
    requires k !in KeysOf(pairs)
    ensures SumFor(pairs, k) == 0
  {
    if |pairs| > 0 {
      var front := pairs[..|pairs| - 1];
      assert forall i :: 0 <= i < |front| ==> front[i] == pairs[i];
      assert k !in KeysOf(front);
      SumForAbsent(front, k);
    }
  }

  /** The grouped sum: one entry for each key present in the rows and no
      other, holding the sum of that key's values. */
  function GroupSum<K(==)>(pairs: seq<(K, int)>): (m: map<K, int>)
    ensures m.Keys == KeysOf(pairs)
    ensures forall k :: k in m ==> m[k] == SumFor(pairs, k)
  {
    if |pairs| == 0 then map[]
    else
      var front := pairs[..|pairs| - 1];
      var last := pairs[|pairs| - 1];
      var m := GroupSum(front);
      assert KeysOf(pairs) == KeysOf(front) + {last.0} by {
        assert forall i :: 0 <= i < |front| ==> front[i] == pairs[i];
      }
      if last.0 in m then m[last.0 := m[last.0] + last.1]
      else
        SumForAbsent(front, last.0);
        m[last.0 := last.1]
  }

  /** Some key of a non-empty map. */
  ghost function Pick<K>(m: map<K, int>): (k: K)
    requires |m| > 0
    ensures k in m
  {
    assert m.Keys != {};
    var k :| k in m; k
  }

  /** The sum of a map's values. */
  ghost function MapTotal<K>(m: map<K, int>): int
    decreases |m|
  {
    if |m| == 0 then 0
    else
      var k := Pick(m);
      m[k] + MapTotal(m - {k})
  }

  /** Any entry can be taken out of the sum first. */
  lemma MapTotalRemove<K>(m: map<K, int>, k: K)
    requires k in m
    ensures MapTotal(m) == m[k] + MapTotal(m - {k})
    decreases |m|
  {
    var j := Pick(m);
    if j != k {
      assert |m - {j}| == |m| - 1;
      MapTotalRemove(m - {j}, k);
      MapTotalRemove(m - {k}, j);
      assert m - {j} - {k} == m - {k} - {j};
    }
  }

  /** Adding `v` to one entry (a new entry counting as 0) adds `v` to the sum. */
  lemma MapTotalAdd<K>(m: map<K, int>, k: K, v: int)
    ensures MapTotal(m[k := (if k in m then m[k] else 0) + v]) == MapTotal(m) + v
  {
    if k in m {
      MapTotalUpdate(m, k, m[k] + v);
    } else {
      MapTotalInsert(m, k, v);
    }
  }

  lemma MapTotalUpdate<K>(m: map<K, int>, k: K, v: int)
    requires k in m
    ensures MapTotal(m[k := v]) == MapTotal(m) - m[k] + v
  {
    MapTotalRemove(m[k := v], k);
    assert m[k := v] - {k} == m - {k};
    MapTotalRemove(m, k);
  }

  lemma MapTotalInsert<K>(m: map<K, int>, k: K, v: int)
    requires k !in m
    ensures MapTotal(m[k := v]) == MapTotal(m) + v
  {
    MapTotalRemove(m[k := v], k);
    assert m[k := v] - {k} == m;
  }

  /** Grouping conserves the total: no value is lost or counted twice. */
  lemma {:induction false} GroupSumTotal<K>(pairs: seq<(K, int)>)
    ensures MapTotal(GroupSum(pairs)) == Sum(Values(pairs))
  {
    if |pairs| > 0 {
      var front := pairs[..|pairs| - 1];
      var k, v := pairs[|pairs| - 1].0, pairs[|pairs| - 1].1;
      assert Sum(Values(pairs)) == Sum(Values(front)) + v by {
        assert Values(pairs)[..|pairs| - 1] == Values(front);
      }
      var m := GroupSum(front);
      assert GroupSum(pairs) == m[k := (if k in m then m[k] else 0) + v];
      GroupSumTotal(front);
      MapTotalAdd(m, k, v);
    }
  }

  /** No rows, no groups; and every group comes from at least one row. */
  lemma GroupSumEmpty<K>(pairs: seq<(K, int)>)
    ensures GroupSum(pairs) == map[] <==> |pairs| == 0
  {
    if |pairs| > 0 {
      assert pairs[0].0 in KeysOf(pairs);
    }
  }
}

=== FILE: period.dfy ===
/** Period labels ("P0" .. "P23") and the two ways the dashboard turns them into
    an hour: Python's `int(x[1:])` on the loaded rows, and SQLite's
    `CAST(substr(periodo, 2) AS INTEGER)` inside the hour filter. */
module Period {

  import opened Wrappers
  import opened Text

  /** Everything after the first character: Python's `x[1:]`, and equally
      SQLite's 1-based `substr(x, 2)`; both give "" on the empty string. */
  function DropFirst(s: string): (r: string)
    ensures |s| > 0 ==> s == [s[0]] + r
    ensures |s| == 0 ==> r == ""
  {
    if |s| == 0 then "" else s[1..]
  }

  /** Python's `int(s)` for base-10 ASCII text: an optional sign followed by at
      least one ASCII digit; anything else raises, modelled as `None`. The
      whitespace, `_` separators and non-ASCII digits Python also accepts are
      not modelled. Whenever Python
      accepts the text, SQLite's integer cast reads the same number from it. */
  function PythonInt(s: string): (r: Option<int>)
    ensures r.Some? ==> SqlCastInteger(s) == r.value
    ensures r.Some? <==> |s| > 0 && AllDigits(s[1..])
                         && (IsDigit(s[0]) || ((s[0] == '-' || s[0] == '+') && |s| > 1))
  {
    if |s| > 0 && (s[0] == '-' || s[0] == '+') then
      var body := s[1..];
      if |body| > 0 && AllDigits(body) then
        DigitRunOfDigits(body, "");
        assert body + "" == body;
        var v: int := DigitsValue(body);
        Some(if s[0] == '-' then -v else v)
      else None
    else if |s| > 0 && AllDigits(s) then
      DigitRunOfDigits(s, "");
      assert s + "" == s;
      Some(DigitsValue(s))
    else None
  }

  /** SQLite's `CAST(s AS INTEGER)` for text: the longest prefix that reads as an
      optionally signed integer, and 0 when there is no such prefix. */
  function SqlCastInteger(s: string): (r: int)
    ensures (|s| == 0 || (!IsDigit(s[0]) && s[0] != '-' && s[0] != '+')) ==> r == 0
    ensures AllDigits(s) ==> r == DigitsValue(s)
  {
    var signed := |s| > 0 && (s[0] == '-' || s[0] == '+');
    var body := if signed then s[1..] else s;
    var k := DigitRun(body);
    assert AllDigits(s) ==> !signed && k == |s| && body[..k] == s by {
      if AllDigits(s) {
        DigitRunOfDigits(s, "");
        assert s + "" == s;
      }
    }
    var v: int := DigitsValue(body[..k]);
    if signed && s[0] == '-' then -v else v
  }

  /** main.py line 113: `int(x[1:])` on a period label. */
  function DecodeLabel(period: string): (r: Option<int>)
    ensures r.Some? ==> |period| >= 2
    ensures r.Some? ==> SqlHour(period) == r.value
  {
    PythonInt(DropFirst(period))
  }

  /** main.py line 73: the hour the SQL filter compares, `CAST(substr(periodo, 2) AS INTEGER)`. */
  function SqlHour(period: string): (r: int)
    ensures |period| <= 1 ==> r == 0
  {
    SqlCastInteger(DropFirst(period))
  }

  /** The period the dataset stores for hour `h`. */
  function Label(h: nat): string {
    "P" + NatToDecimal(h)
  }

  /** Decoding drops exactly one leading character, whatever it is, and reads
      the rest back: the decimal text of `h` behind any one character decodes
      to `h` both in Python and in the SQL filter. */
  lemma {:induction false} LabelRoundTrip(c: char, h: nat)
    ensures DecodeLabel([c] + NatToDecimal(h)) == Some(h)
    ensures SqlHour([c] + NatToDecimal(h)) == h
  {
    var d := NatToDecimal(h);
    assert DropFirst([c] + d) == d;
    assert IsDigit(d[0]);
  }

  /** The dataset's own labels "P0" .. "P23" decode to their hour. */
  lemma DatasetLabels(h: nat)
    requires h < 24
    ensures DecodeLabel(Label(h)) == Some(h)
    ensures SqlHour(Label(h)) == h
  {
    LabelRoundTrip('P', h);
  }

  /** Exactly one character is dropped: a period whose first character is a
      digit is not read as a whole number ("18" decodes to 8, and "P" alone,
      "" and "PP8" are rejected). */
  lemma DropsExactlyOne()
    ensures DecodeLabel("18") == Some(8)
    ensures DecodeLabel("P") == None
    ensures DecodeLabel("") == None
    ensures DecodeLabel("PP8") == None
  {
    assert DropFirst("18") == "8";
    assert DigitsValue("8") == 8;
    assert DropFirst("PP8") == "P8";
  }
}

=== FILE: query.dfy ===
/** The filter-to-SQL query builder of `load_data` (main.py lines 64-80): a
    fixed base query restricted to non-professional trips, followed by up to
    three optional clauses — transport modes, an inclusive hour range, an
    origin-or-destination zone list — always in that order, each behind one
    " AND ". Values are spliced into the text verbatim, without escaping. */
module Query {

  import opened Wrappers
  import opened Text

  /** The inclusive hour range the slider yields, `(lo, hi)`, in that order. */
  datatype PeriodRange = PeriodRange(lo: int, hi: int)

  /** The three arguments of `load_data`. A Python 2-tuple is always truthy, so
      the range clause is skipped only when no range is passed at all. Zones are
      the integers whose decimal text the zone selector offers ("1" .. "999");
      `str()` of such a text is the text itself. */
  datatype Filter = Filter(modes: seq<string>, period: Option<PeriodRange>, zones: seq<int>)

  /** One entry of the `filters` list. */
  datatype Clause =
    | ModeIn(modes: seq<string>)
    | HourBetween(lo: int, hi: int)
    | ZoneIn(zones: seq<int>)

  /** Position of a clause kind in the fixed order modo, periodo, zona. */
  function Rank(c: Clause): nat {
    match c
    case ModeIn(_) => 0
    case HourBetween(_, _) => 1
    case ZoneIn(_) => 2
  }

  const BaseQuery: string := "SELECT origen, destino, periodo, modo, viajes FROM viajes WHERE profesional = 'No'"
  const And: string := " AND "
  const ModeHead: string := "modo IN ('"
  const ModeSeparator: string := "','"
  const ModeTail: string := "')"
  const HourHead: string := "CAST(substr(periodo, 2) AS INTEGER) BETWEEN "
  const ZoneHead: string := "(origen IN ("
  const ZoneMiddle: string := ") OR destino IN ("
  const ZoneTail: string := "))"

  /** The clauses `load_data` appends to `filters`: a mode clause exactly when
      the mode list is non-empty, an hour clause exactly when a range is
      supplied, a zone clause exactly when the zone list is non-empty, in that
      order and each at most once. */
  function Clauses(f: Filter): (cs: seq<Clause>)
    ensures forall i, j :: 0 <= i < j < |cs| ==> Rank(cs[i]) < Rank(cs[j])
    ensures ModeIn(f.modes) in cs <==> |f.modes| > 0
    ensures forall c :: c in cs && c.ModeIn? ==> c == ModeIn(f.modes)
    ensures f.period.Some? ==> HourBetween(f.period.value.lo, f.period.value.hi) in cs
    ensures forall c :: c in cs && c.HourBetween? ==> f.period == Some(PeriodRange(c.lo, c.hi))
    ensures ZoneIn(f.zones) in cs <==> |f.zones| > 0
    ensures forall c :: c in cs && c.ZoneIn? ==> c == ZoneIn(f.zones)
  {
    (if |f.modes| > 0 then [ModeIn(f.modes)] else [])
    + (if f.period.Some? then [HourBetween(f.period.value.lo, f.period.value.hi)] else [])
    + (if |f.zones| > 0 then [ZoneIn(f.zones)] else [])
  }

  /** `map(str, zonas)` */
  function Decimals(zs: seq<int>): (ds: seq<string>)
    ensures |ds| == |zs|
    ensures forall i :: 0 <= i < |zs| ==> ds[i] == IntToDecimal(zs[i])
  {
    if |zs| == 0 then [] else [IntToDecimal(zs[0])] + Decimals(zs[1..])
  }

  /** The f-string each clause kind is written with. */
  function RenderClause(c: Clause): (r: string)
    ensures c.ModeIn? ==> StripPrefix(r, ModeHead).Some?
    ensures c.HourBetween? ==> StripPrefix(r, HourHead).Some?
    ensures c.ZoneIn? ==> StripPrefix(r, ZoneHead).Some?
  {
    match c
    case ModeIn(ms) =>
      var list := Join(ms, ModeSeparator);
      Regroup3(ModeHead, list, ModeTail);
      StripPrefixOfConcat(ModeHead, list + ModeTail);
      ModeHead + list + ModeTail
    case HourBetween(lo, hi) =>
      Regroup4(HourHead, IntToDecimal(lo), And, IntToDecimal(hi));
      StripPrefixOfConcat(HourHead, IntToDecimal(lo) + (And + IntToDecimal(hi)));
      HourHead + IntToDecimal(lo) + And + IntToDecimal(hi)
    case ZoneIn(zs) =>
      var list := Join(Decimals(zs), ",");
      Regroup5(ZoneHead, list, ZoneMiddle, list, ZoneTail);
      StripPrefixOfConcat(ZoneHead, list + (ZoneMiddle + (list + ZoneTail)));
      ZoneHead + list + ZoneMiddle + list + ZoneTail
  }

  function RenderAll(cs: seq<Clause>): (ss: seq<string>)
    ensures |ss| == |cs|
    ensures forall i :: 0 <= i < |cs| ==> ss[i] == RenderClause(cs[i])
  {
    if |cs| == 0 then [] else [RenderClause(cs[0])] + RenderAll(cs[1..])
  }

  /** Each string behind its own " AND ": the reading of the query in which
      every present clause is preceded by exactly one conjunction. */
  function Prefixed(ss: seq<string>): (r: string)
    ensures |ss| == 0 <==> r == ""
    ensures |ss| > 0 ==> |And| <= |r| && r[..|And|] == And
  {
    if |ss| == 0 then "" else And + ss[0] + Prefixed(ss[1..])
  }

  /** `" AND " + " AND ".join(ss)` puts exactly one " AND " in front of each
      element of a non-empty list. */
  lemma {:induction false} JoinAsPrefixed(ss: seq<string>)
    requires |ss| > 0
    ensures And + Join(ss, And) == Prefixed(ss)
  {
    if |ss| > 1 {
      JoinAsPrefixed(ss[1..]);
      assert And + Join(ss, And) == And + ss[0] + (And + Join(ss[1..], And));
    }
  }

  /** `load_data`'s query text. The base query, with its non-professional
      restriction, is always a prefix; the text is the bare base query exactly
      when no filter is active; otherwise every clause follows the base query
      behind exactly one " AND ", in the order `Clauses` fixes. */
  function BuildQuery(f: Filter): (q: string)
    ensures |BaseQuery| <= |q| && q[..|BaseQuery|] == BaseQuery
    ensures q == BaseQuery <==> |f.modes| == 0 && f.period.None? && |f.zones| == 0
    ensures q == BaseQuery + Prefixed(RenderAll(Clauses(f)))
  {
    var filters := RenderAll(Clauses(f));
    var q := if |filters| > 0 then BaseQuery + And + Join(filters, And) else BaseQuery;
    assert q == BaseQuery + Prefixed(filters) by {
      if |filters| > 0 {
        JoinAsPrefixed(filters);
      }
    }
    assert |filters| == 0 <==> |f.modes| == 0 && f.period.None? && |f.zones| == 0;
    StripPrefixOfConcat(BaseQuery, Prefixed(filters));
    q
  }

  /** The text of a one-clause filter. */
  lemma OneClauseQuery(f: Filter, c: Clause)
    requires Clauses(f) == [c]
    ensures BuildQuery(f) == BaseQuery + And + RenderClause(c)
  {
    assert RenderAll([c]) == [RenderClause(c)];
    assert Prefixed([RenderClause(c)]) == And + RenderClause(c) + "";
    Regroup3(BaseQuery, And, RenderClause(c));
  }

  /** The slider's full default range (0, 23) still emits the hour clause. */
  lemma DefaultRangeStillFilters()
    ensures BuildQuery(Filter([], Some(PeriodRange(0, 23)), []))
         == BaseQuery + And + (HourHead + "0" + And + "23")
  {
    var f := Filter([], Some(PeriodRange(0, 23)), []);
    assert Clauses(f) == [HourBetween(0, 23)];
    OneClauseQuery(f, HourBetween(0, 23));
    assert NatToDecimal(2) == "2";
    assert RenderClause(HourBetween(0, 23)) == HourHead + "0" + And + "23";
  }

  /** The text of a two-clause filter. */
  lemma TwoClauseQuery(f: Filter, c0: Clause, c1: Clause)
    requires Clauses(f) == [c0, c1]
    ensures BuildQuery(f) == BaseQuery + And + RenderClause(c0) + And + RenderClause(c1)
  {
    var r0, r1 := RenderClause(c0), RenderClause(c1);
    assert RenderAll([c0, c1]) == [r0, r1];
    PrefixedPair(r0, r1);
    Regroup5(BaseQuery, And, r0, And, r1);
  }

  lemma PrefixedPair(a: string, b: string)
    ensures Prefixed([a, b]) == And + a + (And + b)
  {
    assert [a, b][1..] == [b];
    assert Prefixed([b]) == And + b + "";
  }

  /** The dashboard's initial state: the default mode and the full range. */
  lemma InitialQuery()
    ensures BuildQuery(Filter(["Transporte público"], Some(PeriodRange(0, 23)), []))
         == BaseQuery + And + (ModeHead + "Transporte público" + ModeTail)
            + And + (HourHead + "0" + And + "23")
  {
    var f := Filter(["Transporte público"], Some(PeriodRange(0, 23)), []);
    assert Clauses(f) == [ModeIn(["Transporte público"]), HourBetween(0, 23)];
    TwoClauseQuery(f, ModeIn(["Transporte público"]), HourBetween(0, 23));
    assert RenderClause(ModeIn(["Transporte público"])) == ModeHead + "Transporte público" + ModeTail;
    assert NatToDecimal(2) == "2";
    assert RenderClause(HourBetween(0, 23)) == HourHead + "0" + And + "23";
  }

  lemma ZoneListText()
    ensures Join(Decimals([5, 12]), ",") == "5,12"
  {
    assert NatToDecimal(1) == "1";
    assert IntToDecimal(12) == "12";
    assert Decimals([12]) == ["12"];
    assert Decimals([5, 12]) == ["5", "12"];
  }

  /** Modes are joined by "','" in input order; one zone list serves both the
      origin and the destination test. */
  lemma ModesAndZonesQuery()
    ensures BuildQuery(Filter(["Privado", "No motorizado"], None, [5, 12]))
         == BaseQuery + And + (ModeHead + ("Privado" + ModeSeparator + "No motorizado") + ModeTail)
            + And + (ZoneHead + "5,12" + ZoneMiddle + "5,12" + ZoneTail)
  {
    var f := Filter(["Privado", "No motorizado"], None, [5, 12]);
    assert Clauses(f) == [ModeIn(["Privado", "No motorizado"]), ZoneIn([5, 12])];
    TwoClauseQuery(f, ModeIn(["Privado", "No motorizado"]), ZoneIn([5, 12]));
    assert Join(["Privado", "No motorizado"], ModeSeparator) == "Privado" + ModeSeparator + "No motorizado";
    ZoneListText();
  }

  /** Modes are inserted verbatim: a mode containing the quote-comma-quote
      separator yields the very same text as two separate modes, so the text
      no longer determines the filter. */
  lemma UnescapedModesCollide()
    ensures BuildQuery(Filter(["a','b"], None, [])) == BuildQuery(Filter(["a", "b"], None, []))
    ensures Filter(["a','b"], None, []) != Filter(["a", "b"], None, [])
  {
    assert Join(["a", "b"], ModeSeparator) == "a','b";
  }
}

=== FILE: reader.dfy ===
/** How the SQL engine reads the WHERE clause `load_data` writes: the clause
    grammar the builder emits, read back into clauses. Together with the row
    semantics in module Rows this gives the query text its meaning, and the
    round trip below shows the text determines the filter whenever no mode
    contains a quote. Texts outside this grammar are not interpreted. */
module QueryReader {

  import opened Wrappers
  import opened Text
  import opened Query

  /** An integer literal, with an optional minus sign, read up to the first
      character that is not a digit. */
  function ParseInt(s: string): (r: Option<(int, string)>)
    ensures r.Some? ==> |r.value.1| < |s|
    ensures r.Some? ==> r.value.1 == [] || !IsDigit(r.value.1[0])
  {
    var neg := |s| > 0 && s[0] == '-';
    var body := if neg then s[1..] else s;
    var k := DigitRun(body);
    if k == 0 then None
    else
      var v: int := DigitsValue(body[..k]);
      Some((if neg then -v else v, body[k..]))
  }

  /** Comma-separated integer literals, as in `origen IN (5,12)`. */
  function ParseIntList(s: string): (r: Option<(seq<int>, string)>)
    ensures r.Some? ==> |r.value.1| < |s| && |r.value.0| > 0
    decreases |s|
  {
    var p :- ParseInt(s);
    if |p.1| > 0 && p.1[0] == ',' then
      var q :- ParseIntList(p.1[1..]);
      Some(([p.0] + q.0, q.1))
    else Some(([p.0], p.1))
  }

  /** Quoted text literals separated by "','" and closed by "')", as in
      `modo IN ('Privado','No motorizado')` after its opening quote. A literal
      ends at the first quote. */
  function ParseModeList(s: string): (r: Option<(seq<string>, string)>)
    ensures r.Some? ==> |r.value.1| < |s| && |r.value.0| > 0
    decreases |s|
  {
    var k := IndexOf(s, '\'');
    if k == |s| then None
    else
      var after := s[k + 1..];
      if |after| >= 2 && after[..2] == ",'" then
        var q :- ParseModeList(after[2..]);
        Some(([s[..k]] + q.0, q.1))
      else if |after| >= 1 && after[0] == ')' then Some(([s[..k]], after[1..]))
      else None
  }

  /** The rest of a mode clause after "modo IN ('". */
  function ParseModeBody(s: string): (r: Option<(Clause, string)>)
    ensures r.Some? ==> |r.value.1| < |s|
  {
    var q :- ParseModeList(s);
    Some((ModeIn(q.0), q.1))
  }

  /** The rest of an hour clause after "... BETWEEN ": `lo AND hi`. */
  function ParseHourBody(s: string): (r: Option<(Clause, string)>)
    ensures r.Some? ==> |r.value.1| < |s|
  {
    var lo :- ParseInt(s);
    var t :- StripPrefix(lo.1, And);
    var hi :- ParseInt(t);
    Some((HourBetween(lo.0, hi.0), hi.1))
  }

  /** The rest of a zone clause after "(origen IN (": the origin list, the
      destination list, which must repeat it, and the closing brackets. */
  function ParseZoneBody(s: string): (r: Option<(Clause, string)>)
    ensures r.Some? ==> |r.value.1| < |s|
  {
    var origins :- ParseIntList(s);
    var t :- StripPrefix(origins.1, ZoneMiddle);
    var destinations :- ParseIntList(t);
    if destinations.0 != origins.0 then None
    else
      var rest :- StripPrefix(destinations.1, ZoneTail);
      Some((ZoneIn(origins.0), rest))
  }

  /** One clause of the three kinds, recognised by its opening words. */
  function ParseClause(s: string): (r: Option<(Clause, string)>)
    ensures r.Some? ==> |r.value.1| < |s|
  {
    if StripPrefix(s, ModeHead).Some? then ParseModeBody(StripPrefix(s, ModeHead).value)
    else if StripPrefix(s, HourHead).Some? then ParseHourBody(StripPrefix(s, HourHead).value)
    else if StripPrefix(s, ZoneHead).Some? then ParseZoneBody(StripPrefix(s, ZoneHead).value)
    else None
  }

  /** A run of clauses, each behind " AND ", up to the end of the text. */
  function ParseClauses(s: string): (r: Option<seq<Clause>>)
    decreases |s|
  {
    if |s| == 0 then Some([])
    else
      var t :- StripPrefix(s, And);
      var p :- ParseClause(t);
      var cs :- ParseClauses(p.1);
      Some([p.0] + cs)
  }

  /** The clauses of a query text that starts with the base query. */
  function ParseWhere(text: string): Option<seq<Clause>> {
    var t :- StripPrefix(text, BaseQuery);
    ParseClauses(t)
  }

  /** The filter a clause list stands for: each clause kind sets its own
      argument, and an absent kind leaves the argument empty. */
  function FilterOf(cs: seq<Clause>): Filter {
    if |cs| == 0 then Filter([], None, [])
    else
      var f := FilterOf(cs[1..]);
      match cs[0]
      case ModeIn(ms) => f.(modes := ms)
      case HourBetween(lo, hi) => f.(period := Some(PeriodRange(lo, hi)))
      case ZoneIn(zs) => f.(zones := zs)
  }

  /** The filter a query text was built from, when it is one `load_data` can
      write. */
  function ParseQuery(text: string): Option<Filter> {
    var cs :- ParseWhere(text);
    var f := FilterOf(cs);
    if Clauses(f) == cs then Some(f) else None
  }

  predicate QuoteFree(m: string) {
    '\'' !in m
  }

  /** Mode values the builder can splice in without changing the query's
      structure. */
  predicate QuoteFreeModes(ms: seq<string>) {
    forall i :: 0 <= i < |ms| ==> QuoteFree(ms[i])
  }

  /** The clauses `Clauses` can produce for a filter whose modes are quote free. */
  predicate Readable(c: Clause) {
    match c
    case ModeIn(ms) => |ms| > 0 && QuoteFreeModes(ms)
    case HourBetween(_, _) => true
    case ZoneIn(zs) => |zs| > 0
  }

  /** The digits of a natural number read back as it, up to the first
      following non-digit. */
  lemma ParseDigitsOfDecimal(n: nat, rest: string)
    requires rest == [] || !IsDigit(rest[0])
    ensures DigitRun(NatToDecimal(n) + rest) == |NatToDecimal(n)|
    ensures DigitsValue((NatToDecimal(n) + rest)[..|NatToDecimal(n)|]) == n
    ensures (NatToDecimal(n) + rest)[|NatToDecimal(n)|..] == rest
  {
    var d := NatToDecimal(n);
    DigitRunOfDigits(d, rest);
    assert (d + rest)[|d|..] == rest;
  }

  lemma ParseNonNegative(n: nat, rest: string)
    requires rest == [] || !IsDigit(rest[0])
    ensures ParseInt(NatToDecimal(n) + rest) == Some((n, rest))
  {
    var d := NatToDecimal(n);
    ParseDigitsOfDecimal(n, rest);
    assert (d + rest)[0] == d[0];
  }

  lemma ParseNegative(n: nat, rest: string)
    requires rest == [] || !IsDigit(rest[0])
    ensures ParseInt("-" + (NatToDecimal(n) + rest)) == Some((-(n as int), rest))
  {
    var d := NatToDecimal(n);
    ParseDigitsOfDecimal(n, rest);
    assert ("-" + (d + rest))[1..] == d + rest;
  }

  lemma ParseIntOfDecimal(i: int, rest: string)
    requires rest == [] || !IsDigit(rest[0])
    ensures ParseInt(IntToDecimal(i) + rest) == Some((i, rest))
  {
    if i < 0 {
      assert IntToDecimal(i) + rest == "-" + (NatToDecimal(-i) + rest);
      ParseNegative(-i, rest);
    } else {
      ParseNonNegative(i, rest);
    }
  }

  /** `",".join` of two or more decimals: the first, a comma, the rest. */
  lemma DecimalsJoinCons(zs: seq<int>, rest: string)
    requires |zs| > 1
    ensures Join(Decimals(zs), ",") + rest
         == IntToDecimal(zs[0]) + ("," + (Join(Decimals(zs[1..]), ",") + rest))
  {
    assert Decimals(zs)[1..] == Decimals(zs[1..]);
    Regroup4(IntToDecimal(zs[0]), ",", Join(Decimals(zs[1..]), ","), rest);
  }

  /** One step of reading an integer list: a literal, a comma, the rest. */
  lemma ParseIntListStep(z: int, tail: string, more: seq<int>, rest: string)
    requires ParseIntList(tail) == Some((more, rest))
    ensures ParseIntList(IntToDecimal(z) + ("," + tail)) == Some(([z] + more, rest))
  {
    ParseIntOfDecimal(z, "," + tail);
    assert ("," + tail)[1..] == tail;
  }

  lemma {:induction false} ParseIntListOfJoin(zs: seq<int>, rest: string)
    requires |zs| > 0
    requires rest == [] || (!IsDigit(rest[0]) && rest[0] != ',')
    ensures ParseIntList(Join(Decimals(zs), ",") + rest) == Some((zs, rest))
  {
    if |zs| == 1 {
      assert Decimals(zs) == [IntToDecimal(zs[0])];
      ParseIntOfDecimal(zs[0], rest);
      assert [zs[0]] == zs;
    } else {
      DecimalsJoinCons(zs, rest);
      ParseIntListOfJoin(zs[1..], rest);
      ParseIntListStep(zs[0], Join(Decimals(zs[1..]), ",") + rest, zs[1..], rest);
      assert [zs[0]] + zs[1..] == zs;
    }
  }

  /** The first quote of `m + "'" + after` closes the literal `m`. */
  lemma FirstQuote(m: string, after: string)
    requires QuoteFree(m)
    ensures IndexOf(m + ("'" + after), '\'') == |m|
    ensures (m + ("'" + after))[..|m|] == m
    ensures (m + ("'" + after))[|m| + 1..] == after
  {
    var s := m + ("'" + after);
    assert s[|m|] == '\'';
    forall i | 0 <= i < |m|
      ensures s[i] != '\''
    {
      assert s[i] == m[i];
    }
  }

  lemma ParseModeListLast(m: string, rest: string)
    requires QuoteFree(m)
    ensures ParseModeList(m + ("'" + (")" + rest))) == Some(([m], rest))
  {
    var after := ")" + rest;
    FirstQuote(m, after);
    assert after[0] == ')';
    assert after[1..] == rest;
  }

  lemma ParseModeListNext(m: string, t: string)
    requires QuoteFree(m)
    requires ParseModeList(t).Some?
    ensures ParseModeList(m + ("'" + (",'" + t)))
         == Some(([m] + ParseModeList(t).value.0, ParseModeList(t).value.1))
  {
    var after := ",'" + t;
    FirstQuote(m, after);
    assert after[..2] == ",'";
    assert after[2..] == t;
  }

  lemma {:induction false} ParseModeListOfJoin(ms: seq<string>, rest: string)
    requires |ms| > 0 && QuoteFreeModes(ms)
    ensures ParseModeList(Join(ms, ModeSeparator) + (ModeTail + rest)) == Some((ms, rest))
  {
    assert QuoteFree(ms[0]);
    if |ms| == 1 {
      assert Join(ms, ModeSeparator) == ms[0];
      assert ModeTail + rest == "'" + (")" + rest) by {
        assert ModeTail == "'" + ")";
        Regroup3("'", ")", rest);
      }
      ParseModeListLast(ms[0], rest);
      assert [ms[0]] == ms;
    } else {
      var j := Join(ms[1..], ModeSeparator);
      var t := j + (ModeTail + rest);
      assert Join(ms, ModeSeparator) == ms[0] + ModeSeparator + j;
      assert Join(ms, ModeSeparator) + (ModeTail + rest) == ms[0] + ("'" + (",'" + t)) by {
        assert ModeSeparator == "'" + ",'";
        Regroup5(ms[0], "'", ",'", j, ModeTail + rest);
      }
      ParseModeListOfJoin(ms[1..], rest);
      ParseModeListNext(ms[0], t);
      assert [ms[0]] + ms[1..] == ms;
    }
  }

  lemma ParseModeClause(ms: seq<string>, rest: string)
    requires |ms| > 0 && QuoteFreeModes(ms)
    ensures ParseClause(RenderClause(ModeIn(ms)) + rest) == Some((ModeIn(ms), rest))
  {
    var body := Join(ms, ModeSeparator) + (ModeTail + rest);
    Regroup4(ModeHead, Join(ms, ModeSeparator), ModeTail, rest);
    assert RenderClause(ModeIn(ms)) + rest == ModeHead + body;
    StripPrefixOfConcat(ModeHead, body);
    ParseModeListOfJoin(ms, rest);
  }

  lemma ParseHourBodyOfRender(lo: int, hi: int, rest: string)
    requires rest == [] || rest[0] == ' '
    ensures ParseHourBody(IntToDecimal(lo) + (And + (IntToDecimal(hi) + rest)))
         == Some((HourBetween(lo, hi), rest))
  {
    var his := IntToDecimal(hi) + rest;
    assert (And + his)[0] == ' ';
    ParseIntOfDecimal(lo, And + his);
    StripPrefixOfConcat(And, his);
    ParseIntOfDecimal(hi, rest);
  }

  lemma ParseHourClause(lo: int, hi: int, rest: string)
    requires rest == [] || rest[0] == ' '
    ensures ParseClause(RenderClause(HourBetween(lo, hi)) + rest) == Some((HourBetween(lo, hi), rest))
  {
    var s := RenderClause(HourBetween(lo, hi)) + rest;
    var body := IntToDecimal(lo) + (And + (IntToDecimal(hi) + rest));
    Regroup5(HourHead, IntToDecimal(lo), And, IntToDecimal(hi), rest);
    assert s == HourHead + body;
    DistinctHeads(s, HourHead, ModeHead);
    StripPrefixOfConcat(HourHead, body);
    ParseHourBodyOfRender(lo, hi, rest);
  }

  lemma ParseZoneBodyOfRender(zs: seq<int>, rest: string)
    requires |zs| > 0
    ensures ParseZoneBody(Join(Decimals(zs), ",") + (ZoneMiddle + (Join(Decimals(zs), ",") + (ZoneTail + rest))))
         == Some((ZoneIn(zs), rest))
  {
    var list := Join(Decimals(zs), ",");
    var tail := ZoneTail + rest;
    var second := list + tail;
    assert (ZoneMiddle + second)[0] == ')';
    ParseIntListOfJoin(zs, ZoneMiddle + second);
    StripPrefixOfConcat(ZoneMiddle, second);
    assert tail[0] == ')';
    ParseIntListOfJoin(zs, tail);
    StripPrefixOfConcat(ZoneTail, rest);
  }

  lemma ParseZoneClause(zs: seq<int>, rest: string)
    requires |zs| > 0
    ensures ParseClause(RenderClause(ZoneIn(zs)) + rest) == Some((ZoneIn(zs), rest))
  {
    var s := RenderClause(ZoneIn(zs)) + rest;
    var list := Join(Decimals(zs), ",");
    var body := list + (ZoneMiddle + (list + (ZoneTail + rest)));
    Regroup6(ZoneHead, list, ZoneMiddle, list, ZoneTail, rest);
    assert s == ZoneHead + body;
    DistinctHeads(s, ZoneHead, ModeHead);
    DistinctHeads(s, ZoneHead, HourHead);
    StripPrefixOfConcat(ZoneHead, body);
    ParseZoneBodyOfRender(zs, rest);
  }

  /** A text that starts with one clause head does not start with another. */
  lemma DistinctHeads(s: string, head: string, other: string)
    requires |head| > 0 && |other| > 0 && head[0] != other[0]
    requires StripPrefix(s, head).Some?
    ensures StripPrefix(s, other).None?
  {
    if |other| <= |s| {
      assert s[..|other|][0] == s[0] == head[0];
    }
  }

  /** Every clause the builder renders reads back as itself, whatever text
      follows it, provided that text is empty or starts with a space. */
  lemma ParseClauseOfRender(c: Clause, rest: string)
    requires Readable(c)
    requires rest == [] || rest[0] == ' '
    ensures ParseClause(RenderClause(c) + rest) == Some((c, rest))
  {
    match c
    case ModeIn(ms) => ParseModeClause(ms, rest);
    case HourBetween(lo, hi) => ParseHourClause(lo, hi, rest);
    case ZoneIn(zs) => ParseZoneClause(zs, rest);
  }

  /** One step of reading a clause run: " AND ", one clause, the rest. */
  lemma ParseClausesStep(c: Clause, rest: string, tail: seq<Clause>)
    requires Readable(c)
    requires rest == [] || rest[0] == ' '
    requires ParseClauses(rest) == Some(tail)
    ensures ParseClauses(And + (RenderClause(c) + rest)) == Some([c] + tail)
  {
    StripPrefixOfConcat(And, RenderClause(c) + rest);
    ParseClauseOfRender(c, rest);
  }

  /** The text of a non-empty clause run: " AND ", its first clause, the rest. */
  lemma PrefixedCons(cs: seq<Clause>)
    requires |cs| > 0
    ensures Prefixed(RenderAll(cs)) == And + (RenderClause(cs[0]) + Prefixed(RenderAll(cs[1..])))
  {
    assert RenderAll(cs)[1..] == RenderAll(cs[1..]);
    Regroup3(And, RenderClause(cs[0]), Prefixed(RenderAll(cs[1..])));
  }

  /** A clause run's text is empty or starts with the space of " AND ". */
  lemma PrefixedStartsWithSpace(ss: seq<string>)
    ensures Prefixed(ss) == [] || Prefixed(ss)[0] == ' '
  {
    if |ss| > 0 {
      assert Prefixed(ss)[0] == Prefixed(ss)[..|And|][0];
    }
  }

  lemma {:induction false} ParseClausesOfPrefixed(cs: seq<Clause>)
    requires forall i :: 0 <= i < |cs| ==> Readable(cs[i])
    ensures ParseClauses(Prefixed(RenderAll(cs))) == Some(cs)
  {
    if |cs| > 0 {
      var c, tail := cs[0], cs[1..];
      ParseClausesOfPrefixed(tail);
      PrefixedCons(cs);
      PrefixedStartsWithSpace(RenderAll(tail));
      ParseClausesStep(c, Prefixed(RenderAll(tail)), tail);
      assert [c] + tail == cs;
    }
  }

  lemma FilterOfCons(c: Clause, cs: seq<Clause>)
    ensures FilterOf([c] + cs) == match c
      case ModeIn(ms) => FilterOf(cs).(modes := ms)
      case HourBetween(lo, hi) => FilterOf(cs).(period := Some(PeriodRange(lo, hi)))
      case ZoneIn(zs) => FilterOf(cs).(zones := zs)
  {
    assert ([c] + cs)[1..] == cs;
  }

  lemma FilterOfClauses(f: Filter)
    ensures FilterOf(Clauses(f)) == f
  {
    var z: seq<Clause> := if |f.zones| > 0 then [ZoneIn(f.zones)] else [];
    var p: seq<Clause> := if f.period.Some? then [HourBetween(f.period.value.lo, f.period.value.hi)] else [];
    var m: seq<Clause> := if |f.modes| > 0 then [ModeIn(f.modes)] else [];
    assert Clauses(f) == m + (p + z);
    if |f.zones| > 0 {
      FilterOfCons(ZoneIn(f.zones), []);
    }
    assert FilterOf(z) == Filter([], None, f.zones);
    if f.period.Some? {
      FilterOfCons(HourBetween(f.period.value.lo, f.period.value.hi), z);
    }
    assert FilterOf(p + z) == Filter([], f.period, f.zones);
    if |f.modes| > 0 {
      FilterOfCons(ModeIn(f.modes), p + z);
    }
  }

  /** The query text determines its clauses, and through them the filter it
      was built from, whenever no selected mode contains a quote. */
  lemma QueryRoundTrip(f: Filter)
    requires QuoteFreeModes(f.modes)
    ensures ParseWhere(BuildQuery(f)) == Some(Clauses(f))
    ensures ParseQuery(BuildQuery(f)) == Some(f)
  {
    var cs := Clauses(f);
    StripPrefixOfConcat(BaseQuery, Prefixed(RenderAll(cs)));
    ParseClausesOfPrefixed(cs);
    FilterOfClauses(f);
  }

  /** Two filters with quote-free modes that produce the same text are the
      same filter. */
  lemma QueryIsInjective(f: Filter, g: Filter)
    requires QuoteFreeModes(f.modes) && QuoteFreeModes(g.modes)
    requires BuildQuery(f) == BuildQuery(g)
    ensures f == g
  {
    QueryRoundTrip(f);
    QueryRoundTrip(g);
  }
}

=== FILE: rows.dfy ===
/** The rows `load_data` returns: the `viajes` table, what each emitted clause
    tests of a row, the direct per-dimension filter contract, and the query's
    execution (`pd.read_sql`, main.py line 82) as a function of the table. */
module Rows {

  import opened Wrappers
  import opened Query
  import opened QueryReader
  import Period

  /** A row of the `viajes` table. */
  datatype Trip = Trip(origen: int, destino: int, periodo: string, modo: string, viajes: int, profesional: string)

  /** A row of the query result: the five selected columns. */
  datatype Record = Record(origen: int, destino: int, periodo: string, modo: string, viajes: int)

  function Project(t: Trip): Record {
    Record(t.origen, t.destino, t.periodo, t.modo, t.viajes)
  }

  function ProjectAll(ts: seq<Trip>): (rs: seq<Record>)
    ensures |rs| == |ts|
    ensures forall i :: 0 <= i < |ts| ==> rs[i] == Project(ts[i])
  {
    if |ts| == 0 then [] else [Project(ts[0])] + ProjectAll(ts[1..])
  }

  /** The `viajes` column of a list of trips. */
  function TripCounts(ts: seq<Trip>): (vs: seq<int>)
    ensures |vs| == |ts|
    ensures forall i :: 0 <= i < |ts| ==> vs[i] == ts[i].viajes
  {
    seq(|ts|, i requires 0 <= i < |ts| => ts[i].viajes)
  }

  /** The base query's own restriction, `profesional = 'No'`. */
  predicate NonProfessional(t: Trip) {
    t.profesional == "No"
  }

  /** What one emitted clause tests of a row, read as SQL: `IN` is membership,
      `BETWEEN` is inclusive at both ends, and the zone clause is a
      disjunction of the origin and the destination test. */
  predicate ClauseHolds(c: Clause, t: Trip) {
    match c
    case ModeIn(ms) => t.modo in ms
    case HourBetween(lo, hi) => lo <= Period.SqlHour(t.periodo) <= hi
    case ZoneIn(zs) => t.origen in zs || t.destino in zs
  }

  /** The loader's contract stated dimension by dimension: the row is not
      professional, and for each dimension either the filter leaves it open
      (empty mode list, no range, empty zone list) or the row satisfies it. */
  predicate Matches(t: Trip, f: Filter) {
    && NonProfessional(t)
    && (|f.modes| == 0 || t.modo in f.modes)
    && (f.period.None? || f.period.value.lo <= Period.SqlHour(t.periodo) <= f.period.value.hi)
    && (|f.zones| == 0 || t.origen in f.zones || t.destino in f.zones)
  }

  /** A row passes the emitted query exactly when it passes every emitted
      clause; an absent clause restricts nothing. */
  lemma MatchesIffClauses(t: Trip, f: Filter)
    ensures Matches(t, f) <==> NonProfessional(t) && forall c :: c in Clauses(f) ==> ClauseHolds(c, t)
  {
    var m: seq<Clause> := if |f.modes| > 0 then [ModeIn(f.modes)] else [];
    var p: seq<Clause> := if f.period.Some? then [HourBetween(f.period.value.lo, f.period.value.hi)] else [];
    var z: seq<Clause> := if |f.zones| > 0 then [ZoneIn(f.zones)] else [];
    assert Clauses(f) == m + p + z;
    assert (forall c :: c in m ==> ClauseHolds(c, t)) <==> (|f.modes| == 0 || t.modo in f.modes);
    assert (forall c :: c in p ==> ClauseHolds(c, t))
       <==> (f.period.None? || f.period.value.lo <= Period.SqlHour(t.periodo) <= f.period.value.hi);
    assert (forall c :: c in z ==> ClauseHolds(c, t)) <==> (|f.zones| == 0 || t.origen in f.zones || t.destino in f.zones);
  }

  /** The rows the SQL engine returns for a list of WHERE clauses, in table
      order: non-professional rows that pass every clause. */
  function Where(table: seq<Trip>, cs: seq<Clause>): (rs: seq<Record>)
    ensures |rs| <= |table|
    ensures forall r :: r in rs ==> exists t :: t in table && NonProfessional(t) && r == Project(t)
  {
    if |table| == 0 then []
    else
      var t := table[0];
      (if NonProfessional(t) && forall c :: c in cs ==> ClauseHolds(c, t) then [Project(t)] else [])
      + Where(table[1..], cs)
  }

  /** Running a query text against the table. Only texts in the grammar the
      builder writes are interpreted; any other text is a load error. */
  function RunQuery(table: seq<Trip>, text: string): (r: Option<seq<Record>>)
    ensures r.Some? <==> ParseWhere(text).Some?
    ensures r.Some? ==> |r.value| <= |table|
  {
    var cs :- ParseWhere(text);
    Some(Where(table, cs))
  }

  /** `load_data(modos, periodo_range, zonas)` against a given table. */
  function LoadData(table: seq<Trip>, modes: seq<string>, period: Option<PeriodRange>, zones: seq<int>): (r: Option<seq<Record>>)
    ensures r.Some? ==> |r.value| <= |table|
    ensures r.Some? ==> forall x :: x in r.value ==> exists t :: t in table && NonProfessional(t) && x == Project(t)
  {
    RunQuery(table, BuildQuery(Filter(modes, period, zones)))
  }

  /** The trips a filter selects, stated without any query text: every
      matching row as often as it occurs in the table, and nothing else. */
  function Select(table: seq<Trip>, f: Filter): (ts: seq<Trip>)
    ensures |ts| <= |table|
    ensures forall t :: t in ts ==> t in table && Matches(t, f)
    ensures forall t :: multiset(ts)[t] == if Matches(t, f) then multiset(table)[t] else 0
  {
    if |table| == 0 then []
    else
      assert table == [table[0]] + table[1..];
      (if Matches(table[0], f) then [table[0]] else []) + Select(table[1..], f)
  }

  lemma {:induction false} ProjectAllAppend(a: seq<Trip>, b: seq<Trip>)
    ensures ProjectAll(a + b) == ProjectAll(a) + ProjectAll(b)
  {
    if |a| > 0 {
      assert (a + b)[1..] == a[1..] + b;
      ProjectAllAppend(a[1..], b);
    }
  }

  /** The head row is kept by the emitted clauses exactly when the filter
      selects it. */
  lemma WhereStep(table: seq<Trip>, f: Filter)
    requires |table| > 0
    ensures Where(table, Clauses(f))
         == (if Matches(table[0], f) then [Project(table[0])] else []) + Where(table[1..], Clauses(f))
  {
    MatchesIffClauses(table[0], f);
  }

  lemma {:induction false} WhereOfClauses(table: seq<Trip>, f: Filter)
    ensures Where(table, Clauses(f)) == ProjectAll(Select(table, f))
  {
    if |table| > 0 {
      var t := table[0];
      var keep := if Matches(t, f) then [t] else [];
      assert Select(table, f) == keep + Select(table[1..], f);
      WhereStep(table, f);
      WhereOfClauses(table[1..], f);
      ProjectAllAppend(keep, Select(table[1..], f));
      assert ProjectAll(keep) == if Matches(t, f) then [Project(t)] else [];
    }
  }

  /** `load_data` returns exactly the projections of the rows the filter
      selects, whenever no mode contains a quote: the query text means what
      the filter says. */
  lemma LoadDataSelects(table: seq<Trip>, f: Filter)
    requires QuoteFreeModes(f.modes)
    ensures LoadData(table, f.modes, f.period, f.zones) == Some(ProjectAll(Select(table, f)))
  {
    QueryRoundTrip(f);
    assert Filter(f.modes, f.period, f.zones) == f;
    WhereOfClauses(table, f);
  }

  /** Whatever the modes and zones, the full 0..23 range keeps the same rows
      as no range at all on a table whose hours lie in 0..23. */
  lemma {:induction false} FullRangeRestrictsNothing(table: seq<Trip>, f: Filter)
    requires forall i :: 0 <= i < |table| ==> 0 <= Period.SqlHour(table[i].periodo) <= 23
    ensures Select(table, f.(period := Some(PeriodRange(0, 23)))) == Select(table, f.(period := None))
  {
    if |table| > 0 {
      var full := f.(period := Some(PeriodRange(0, 23)));
      var open := f.(period := None);
      assert Matches(table[0], full) == Matches(table[0], open);
      assert Select(table, full) == (if Matches(table[0], full) then [table[0]] else []) + Select(table[1..], full);
      assert Select(table, open) == (if Matches(table[0], open) then [table[0]] else []) + Select(table[1..], open);
      FullRangeRestrictsNothing(table[1..], f);
    }
  }

  /** Without any filter every non-professional trip is returned, as often as
      it occurs in the table, and no professional trip is. */
  lemma NoFilterKeepsNonProfessional(table: seq<Trip>, t: Trip)
    ensures multiset(Select(table, Filter([], None, [])))[t] == if NonProfessional(t) then multiset(table)[t] else 0
  {
    assert Matches(t, Filter([], None, [])) == NonProfessional(t);
  }
}

=== FILE: text.dfy ===
/** Text helpers shared by the query builder and the period decoder:
    Python's `str.join`, the decimal text Python's `str()` and f-strings give an
    integer, and reading decimal digits back. */
module Text {

  import opened Wrappers

  /** Python's `sep.join(parts)`. */
  function Join(parts: seq<string>, sep: string): (r: string)
    ensures |parts| == 0 ==> r == ""
    ensures |parts| == 1 ==> r == parts[0]
  {
    if |parts| == 0 then ""
    else if |parts| == 1 then parts[0]
    else parts[0] + sep + Join(parts[1..], sep)
  }

  predicate IsDigit(c: char) {
    '0' <= c <= '9'
  }

  predicate AllDigits(s: string) {
    forall i :: 0 <= i < |s| ==> IsDigit(s[i])
  }

  function DigitValue(c: char): (d: nat)
    requires IsDigit(c)
    ensures d < 10
  {
    (c as int) - ('0' as int)
  }

  function DigitChar(d: nat): (c: char)
    requires d < 10
    ensures IsDigit(c) && DigitValue(c) == d
  {
    (('0' as int) + d) as char
  }

  /** The number a string of decimal digits denotes, most significant digit first. */
  function DigitsValue(s: string): nat
    requires AllDigits(s)
  {
    if |s| == 0 then 0
    else 10 * DigitsValue(s[..|s| - 1]) + DigitValue(s[|s| - 1])
  }

  /** The decimal text of a natural number, as Python's `str()` writes it. */
  function NatToDecimal(n: nat): (s: string)
    ensures 0 < |s| && AllDigits(s)
    ensures DigitsValue(s) == n
    ensures s[0] == '0' ==> s == "0"
  {
    if n < 10 then [DigitChar(n)]
    else
      var front := NatToDecimal(n / 10);
      assert (front + [DigitChar(n % 10)])[..|front|] == front;
      front + [DigitChar(n % 10)]
  }

  /** The decimal text of an integer, as Python's `str()` and f-strings write it:
      a minus sign for negative numbers, never a plus sign, no leading zeros. */
  function IntToDecimal(i: int): (r: string)
    ensures |r| > 0 && (r[0] == '-' <==> i < 0)
  {
    if i < 0 then "-" + NatToDecimal(-i) else NatToDecimal(i)
  }

  /** Length of the longest prefix of `s` made of decimal digits. */
  function DigitRun(s: string): (k: nat)
    ensures k <= |s| && AllDigits(s[..k])
    ensures k < |s| ==> !IsDigit(s[k])
  {
    if |s| > 0 && IsDigit(s[0]) then
      var k' := DigitRun(s[1..]);
      assert forall i :: 1 <= i < 1 + k' ==> s[i] == s[1..][..k'][i - 1];
      1 + k'
    else 0
  }

  /** A digit string followed by a non-digit (or nothing) has exactly that string
      as its digit run. */
  lemma {:induction false} DigitRunOfDigits(d: string, rest: string)
    requires AllDigits(d)
    requires rest == [] || !IsDigit(rest[0])
    ensures DigitRun(d + rest) == |d|
    ensures (d + rest)[..|d|] == d
  {
    if |d| > 0 {
      assert (d + rest)[1..] == d[1..] + rest;
      DigitRunOfDigits(d[1..], rest);
    }
  }

  /** Index of the first occurrence of `c` in `s`, or `|s|` when there is none. */
  function IndexOf(s: string, c: char): (k: nat)
    ensures k <= |s|
    ensures k < |s| ==> s[k] == c
    ensures forall i :: 0 <= i < k ==> s[i] != c
  {
    if |s| == 0 then 0
    else if s[0] == c then 0
    else 1 + IndexOf(s[1..], c)
  }

  /** `s` with its prefix `p` removed, or `None` when `s` does not start with `p`. */
  function StripPrefix(s: string, p: string): (r: Option<string>)
    ensures r.Some? <==> |p| <= |s| && s[..|p|] == p
    ensures r.Some? ==> s == p + r.value
  {
    if |p| <= |s| && s[..|p|] == p then Some(s[|p|..]) else None
  }

  lemma StripPrefixOfConcat(p: string, rest: string)
    ensures StripPrefix(p + rest, p) == Some(rest)
  {
    assert (p + rest)[..|p|] == p;
    assert (p + rest)[|p|..] == rest;
  }

  /** Re-bracketing concatenations, stated over variables so that long literal
      strings stay folded. */
  lemma Regroup3(a: string, b: string, c: string)
    ensures a + b + c == a + (b + c)
  {
  }

  lemma Regroup4(a: string, b: string, c: string, d: string)
    ensures a + b + c + d == a + (b + (c + d))
    ensures a + (b + c) + d == a + (b + (c + d))
  {
  }

  lemma Regroup5(a: string, b: string, c: string, d: string, e: string)
    ensures a + b + c + d + e == a + (b + (c + (d + e)))
    ensures a + (b + c) + d + e == a + (b + (c + (d + e)))
    ensures a + (b + c + (d + e)) == a + (b + (c + (d + e)))
  {
  }

  lemma Regroup6(a: string, b: string, c: string, d: string, e: string, f: string)
    ensures a + b + c + d + e + f == a + (b + (c + (d + (e + f))))
  {
  }
}

=== FILE: wrappers.dfy ===
/** The optional value used for every operation of the dashboard that can fail:
    a Python exception or an SQL error becomes `None`. It can be used with `:-`. */
module Wrappers {

  datatype Option<+T> = None | Some(value: T) {

    predicate IsFailure() {
      None?
    }

    function PropagateFailure<U>(): Option<U>
      requires None?
    {
      None
    }

    function Extract(): T
      requires Some?
    {
      value
    }
  }
}
